=== FILE: README.md ===
# Nexus student portal — a Dafny model of its self-contained logic

Nexus is a single-page student portal. Most of it forwards text to a hosted
generative-AI service. Three pieces of it carry their own logic, and this
project models them and proves properties of the model:

- **Login screen** (`handleAuth`): an ordered chain of form checks, then
  registration or login against the account store `nexus_accounts`, a map from
  email to account record (module `Login`, `login.dfy`).
- **Application shell**: restoring the saved `nexus_user` at startup, saving
  it on login, removing it on logout, and the render gate in front of the
  router (module `App`, `app.dfy`).
- **Live voice mentor**:
  - the byte/char loops around base64, little-endian int16 packing,
    de-interleaving into planar float channels, and the outbound frame
    (module `Pcm`, `pcm.dfy`);
  - the playback timeline scheduler with its live-source set and barge-in
    interruption (module `Playback`, `playback.dfy`);
  - the `isActive` / `isConnecting` / session flags and `stopSession`
    (module `LiveSession`, `live_session.dfy`).

`wrappers.dfy` holds the `Option` type. Everything is a pure function over
immutable datatypes, except that the source's for-loops are methods with loop
invariants. Each of those methods is tied to a pure reference definition, and
the round-trip lemmas are stated over the reference definitions.

Foreign calls are parameters:
- `JSON.parse` and `JSON.stringify` are `parse` and `serialise` in `App`.
- `btoa` and `atob` are parameters of `Pcm.CreateBlob` and `Pcm.WireRoundTrip`.
- The float-to-int16 store of `createBlob` is the `toInt16` parameter.
- The output clock `currentTime` is an argument of each playback handler.

Local storage is a `map<string, string>` in `App`. The delays and timers
have no observable effect on these states and are not modelled.

The model follows the code where a careful design would differ:
- `createBlob` neither rounds nor clamps.
- A malformed chunk is not reported as an error. An odd byte count or an
  empty buffer makes `decodeAudioData` throw. By then the handler has already
  moved the cursor to max(cursor, clock). It then skips the rest, including
  the interruption check, and `Playback.OnMessage` models exactly that. A
  frame count that is not whole never reaches the handler, which always
  decodes one channel. In `decodeAudioData` itself, such a count is
  truncated by `createBuffer` and the trailing partial frame is dropped.
- `stopSession` only closes the held session. It does not stop the
  microphone, the contexts or the scheduled sources.
- Results that arrive after a stop are not discarded.
- The cursor and the live set outlive a stop, while the next start opens an
  output context whose clock begins again at 0. The first reply of a
  restarted session then waits behind the old cursor (see "## Findings").
  `LiveSession.Stop` and `LiveSession.Restart` are the corrected stop and
  restart. `LiveSession.Press` and `LiveSession.Replay` keep `stopSession`
  as written.

The record handed to `onLogin` is the full stored account, password included.
The shell saves that record as `nexus_user`.

## Model

| member | source | states |
|---|---|---|
| Login.Validate | components/Login.tsx:25-40 | No error exactly when no check fails. Otherwise the error is the first failing check in the order email, password, registration fields. The password error needs a good email. The registration error needs registration mode, a good email and a long enough password. |
| Login.EndsWith | components/Login.tsx:27 | `email.endsWith(suffix)` holds exactly when the email is some prefix followed by the suffix. |
| Login.EndsWithAppended | components/Login.tsx:27 | Any string followed by the suffix passes `handleAuth`'s suffix test, so an empty local part such as "@somaiya.edu" passes that test. |
| Login.Register | components/Login.tsx:48-59 | An email already in the store gives "User already exists. Please login." and leaves the store unchanged. A new email adds exactly one entry, email ↦ {name, email, password, branch, batch}, keeps every other entry, and logs in with that same record. |
| Login.SignIn | components/Login.tsx:60-69 | The login branch never changes the store. An unknown email gives "No account found with this email." A known email with another password gives "Incorrect password. Please try again." A matching password logs in with the stored record. Each condition holds in both directions. |
| Login.HandleAuth | components/Login.tsx:23-73 | A failing check rejects with the first failing check's message and leaves the store unchanged. Login mode never changes the store. A login means every check passed and the password matched. The store changes only when a new email registers successfully. A form that passes every check goes on to exactly the registration branch or the login branch, as its mode says. |
| Login.ErrorIsFirstFailingCheck | components/Login.tsx:25-70 | The shown error is cleared first, and at most one error appears. With a failing check, it is the first one. Otherwise login mode can only show "", no-account or wrong-password, and registration mode can only show "" or user-exists. |
| Login.BadEmailRejected | components/Login.tsx:27-30 | An email that does not end with @somaiya.edu yields exactly "Official @somaiya.edu email required.", whatever the other fields are, and the store is unchanged. |
| Login.LoginIgnoresRegistrationFields | components/Login.tsx:37-40 | In login mode, name, branch and batch never affect the outcome or the store. |
| Login.StoreStaysWellKeyed | components/Login.tsx:56-68 | If every account is stored under its own email, handling the form keeps that true. An account that logs in has the form's email and is the record stored under it. |
| Login.RegisterThenSignIn | components/Login.tsx:56-68 | After a successful registration, logging in with the same email and password returns the registered record and leaves the store unchanged. |
| Login.RegisterTwiceRefused | components/Login.tsx:50-54 | Registering the same form a second time is refused with the user-exists message and changes nothing. |
| App.Restore | App.tsx:28-38 | The state is ready afterwards whatever happens. An absent or empty saved value changes nothing else. A value that parses becomes the user and storage is kept. A value that fails to parse is removed, and the user stays as it was. Every other key is kept. |
| App.HandleLogin | App.tsx:40-43 | The user becomes the given record. Storage gains `nexus_user` ↦ its serialisation, and every other key is unchanged. |
| App.HandleLogout | App.tsx:45-48 | The user is cleared and `nexus_user` is removed. Every other key and value is unchanged. |
| App.LogoutIdempotent | App.tsx:45-48 | Logging out twice gives the same state as logging out once. |
| App.LoginSurvivesReload | App.tsx:29-43 | A user saved by login is the user restored on the next start, when parse reads back what serialise wrote. |
| App.LogoutSurvivesReload | App.tsx:29-48 | After logout, the next start finds no user, whatever parse does. |
| App.PageFor | App.tsx:60-70 | Exactly the ten listed paths have a page; "/" is the dashboard; every other path has none and is redirected. |
| App.RoutesDistinct | App.tsx:60-69 | No two listed paths lead to the same page. |
| App.Render | App.tsx:50-71 | Before the restore nothing renders, and only then. A ready state with no user shows the Login screen, and only then. Any other path redirects to "/" only when no route matches it. A shown page is the one the route table gives. |
| App.EveryPathLands | App.tsx:56-71 | With a user signed in, every path shows a page. An unmatched path shows the dashboard after its single redirect. |
| App.LoginAndLogoutSwitchScreens | App.tsx:40-54 | Once ready, login leaves the Login screen for the router, and logout returns to it. |
| Pcm.Decode | components/LiveMentor.tsx:17-25 | Output has the input's length. Byte i is the low 8 bits of the code of char i. On a binary string (every code below 256) that is the code itself. |
| Pcm.Encode | components/LiveMentor.tsx:48-55 | Output has the input's length. Char i has code byte i, so the result is always a binary string. |
| Pcm.BytesRoundTrip | components/LiveMentor.tsx:17-55 | bytes → chars → bytes is the identity. |
| Pcm.BinaryRoundTrip | components/LiveMentor.tsx:17-55 | chars → bytes → chars is the identity exactly when every char code is below 256. |
| Pcm.PackLE | components/LiveMentor.tsx:64 | The bytes of the Int16Array's buffer: two per sample. |
| Pcm.UnpackLE | components/LiveMentor.tsx:34 | The Int16Array view of an even-length buffer: one sample per two bytes. |
| Pcm.UnpackAt | components/LiveMentor.tsx:34 | Sample i of the Int16Array view is the signed little-endian value of bytes 2i and 2i+1. |
| Pcm.PackRoundTrip | components/LiveMentor.tsx:34-64 | int16 samples → little-endian bytes → int16 samples is the identity. |
| Pcm.UnpackRoundTrip | components/LiveMentor.tsx:34-64 | Any even-length byte buffer → int16 samples → bytes is the identity. |
| Pcm.DecodeAudioData | components/LiveMentor.tsx:28-45 | The buffer has numChannels channels at the given rate. Each channel has frameCount = (bytes / 2) / numChannels entries, rounded down, all in [-1, 1). Channel c is the column of every numChannels-th int16 sample starting at c, over 32768. |
| Pcm.ChannelData | components/LiveMentor.tsx:38-42 | The inner loop yields one entry per whole frame, each in [-1, 1), and equals channel c's column. |
| Pcm.ColumnLength | components/LiveMentor.tsx:35 | A channel has samples / numChannels entries, one per whole frame. |
| Pcm.ColumnAt | components/LiveMentor.tsx:41 | Frame i of channel c is int16 sample i·numChannels + c over 32768, and that index is within the data. |
| Pcm.DeinterleaveKeepsEverySample | components/LiveMentor.tsx:34-43 | Interleaved sample k lands in channel k mod n at frame k div n, and ×32768 gives it back. |
| Pcm.CreateBlob | components/LiveMentor.tsx:57-67 | The tag is "audio/pcm;rate=16000". The payload is btoa of the int16 frame's little-endian bytes, 2 × frame-length bytes before base64. |
| Pcm.WireRoundTrip | components/LiveMentor.tsx:17-67 | A frame sent by createBlob and received through decode and one-channel decodeAudioData comes back with the frame's length. Sample i is the quantised sample over 32768, provided atob undoes btoa. |
| Playback.ChunkBuffer | components/LiveMentor.tsx:111 | `decodeAudioData(bytes, ctx, 24000, 1)` gives a one-channel 24 kHz buffer of one frame per two bytes. |
| Playback.Schedule | components/LiveMentor.tsx:110-122 | The chunk starts at max(cursor, clock), so never before the clock or the previous end. When the clock has not passed the cursor, it starts at the cursor. The cursor moves to the chunk's end, and the node joins the live set under the next unused name, which the name supply then passes. |
| Playback.Interrupt | components/LiveMentor.tsx:126-133 | Every live node is stopped and no node is started. The live set becomes empty and the cursor returns to 0. |
| Playback.OnMessage | components/LiveMentor.tsx:104-134 | A chunk is scheduled exactly when the message carries a decodable chunk. It starts at exactly the clock or the cursor, whichever is later, and lasts the buffer's duration. An undecodable chunk only moves the cursor to max(cursor, clock), stops nothing and skips the interruption check. Without interruption, nothing stops and the cursor does not decrease. With an interruption, the set empties, the cursor resets, and the stopped set is exactly the live set plus the chunk from the same message. A started node's name was never handed out before, and the name supply never goes back. Validity is kept. |
| Playback.OnEnded | components/LiveMentor.tsx:116-118 | An ended node leaves the live set and nothing else changes. A node already removed changes nothing. |
| Playback.LateEndedSparesNewNode | components/LiveMentor.tsx:116-132 | After an interruption stops a live node, a late `ended` event for that node removes only that node. The next chunk's node has a new name and stays live. |
| Playback.ChunkDuration | components/LiveMentor.tsx:111-121 | A chunk of b bytes lasts (b / 2) / 24000 seconds, which is never negative. |
| Playback.FreshStartAfterInterrupt | components/LiveMentor.tsx:110-132 | After an interruption, the next chunk starts at the current clock. |
| Playback.NoOverlap | components/LiveMentor.tsx:110-122 | In a run of in-order chunks, each starts no earlier than its own clock or the previous chunk's end. The cursor never decreases and ends at the last chunk's end. |
| Playback.Gapless | components/LiveMentor.tsx:110-122 | When each chunk arrives before the queued audio runs out, chunk k starts at the cursor plus the lengths of chunks 0..k-1, and the cursor ends at the cursor plus the total. |
| Playback.ThreeChunks | components/LiveMentor.tsx:110-121 | Three 1 s chunks handled at clocks 0.2, 0.9 and 1.7 start at 0.2, 1.2 and 2.2, and the cursor ends at 3.2. |
| LiveSession.StartSession | components/LiveMentor.tsx:69-70 | Starting shows the connecting phase and leaves the active flag and the session unchanged. |
| LiveSession.OnOpen | components/LiveMentor.tsx:84-87 | Opening sets active and clears connecting. |
| LiveSession.OnClose | components/LiveMentor.tsx:136-139 | Closing clears both flags. |
| LiveSession.OnStartFailure | components/LiveMentor.tsx:152-155 | A failed start clears connecting and keeps the active flag. |
| LiveSession.OnConnected | components/LiveMentor.tsx:151 | The resolved session is held, and the flags are unchanged. |
| LiveSession.StopSession | components/LiveMentor.tsx:158-164 | The held session, if any, is closed and dropped, and active is cleared. Connecting is untouched. |
| LiveSession.StopIdempotent | components/LiveMentor.tsx:158-164 | Stopping twice equals stopping once, and the second stop closes nothing. |
| LiveSession.Press | components/LiveMentor.tsx:181-183 | The button does nothing while connecting. It stops while active and starts otherwise. |
| LiveSession.ReplayConsistent | components/LiveMentor.tsx:69-164 | Over any sequence of presses, opens, closes, failures and connections, active and connecting never hold together. |
| LiveSession.RestartAsWritten | components/LiveMentor.tsx:13-14 | A stop and a start as the code does them: the mentor is connecting with no session held, and the playback cursor and live set are carried over unchanged. |
| LiveSession.StaleCursorDelaysReply | components/LiveMentor.tsx:76-77 | After a restart as written, a first reply arriving at clock t before the old cursor starts at the old cursor, after cursor − t seconds of silence, and the old nodes still count as live. |
| LiveSession.RestartAfterLongReply | components/LiveMentor.tsx:110 | A session queued up to 58 s, stopped and restarted: its first reply at clock 0 starts at 58 s. |
| LiveSession.Stop | components/LiveMentor.tsx:158-164 | Stopping the whole component: the flags and session as `stopSession` leaves them, every live node silenced, the live set empty and the cursor at 0. |
| LiveSession.Restart | components/LiveMentor.tsx:69-70 | A stop then a start with the reset: connecting, no session held, the old session closed and its nodes silenced. |
| LiveSession.RestartPlaysAtOnce | components/LiveMentor.tsx:110 | After a restart with the reset, the first reply starts at the current clock of the new context. |
| LiveSession.StartOpenStop | components/LiveMentor.tsx:69-164 | Press, open, connect, press: connecting, then active, then back to the initial state with the session closed. |

## Left out

- Every form page and the AI service wrapper are left out. They only build prompt strings and call the hosted SDK.
- `atob`, `btoa`, `JSON.parse`, `JSON.stringify`, `localStorage` and `setTimeout` are parameters or plain maps. Their behaviour is not modelled.
- A corrupt `nexus_accounts` value, which makes the login handler throw inside its timer, is not modelled. The store is taken as an already parsed map.
- Playback.OnMessage: the message carries its audio already decoded to bytes. The `atob` step and the optional-chain lookup of the first part are left out. An absent part and an empty data string both appear as `None`. Invalid base64 makes `atob` throw at the same point as an undecodable chunk, with the same effect, and is not modelled separately.
- Playback.OnMessage: the handler is taken as atomic. The `await` between reading the cursor (line 110) and advancing it (line 121) would let another message handler interleave, and the model does not express that.
- Pcm.CreateBlob: the float-to-int16 store (a multiply followed by Int16Array's truncating, wrapping conversion) is an abstract parameter. Nothing is claimed about it.
- Pcm.DecodeAudioData: an odd byte count, fewer samples than one whole frame, a channel count of zero and a sample rate of 0 are preconditions. The source throws on each. A channel count above what `createBuffer` supports, and a non-zero sample rate outside the browser's supported range, also throw there and are not modelled. The one call site passes 24000.
- Pcm.Decode: chars are Unicode scalar values. JavaScript's `length` and `charCodeAt` count UTF-16 code units, so a char above U+FFFF gives two bytes there and one here. `atob` only returns chars below 256, so no input the handler sees is affected.
- The microphone tap, the script processor, the send path through the session promise and every Web Audio node call (`start`, `stop`, `connect`) are left out. They are device and network I/O.
- The transcript state of the voice mentor is never written by the code, so it is not modelled.
- Login.Validate: the password length counts Unicode scalar values. JavaScript counts UTF-16 code units, so a password with characters outside the Basic Multilingual Plane is measured shorter here.
- The browser's own form validation (`required` on every field, `type="email"` on the email) filters input before `handleAuth` runs. The model takes any strings, so it also covers input that the browser would refuse.
- App.Render: routes match exactly. The router's case-insensitive matching and its tolerance of a trailing slash are not modelled.
- The dashboard, layout, timeline, constants, types and build configuration files only render or hold static data.

## Findings

| source | as written | input that shows it | evidently intended | confidence | as-written member | corrected member |
|---|---|---|---|---|---|---|
| components/LiveMentor.tsx:158-164 | `stopSession` resets neither `nextStartTimeRef` nor `sourcesRef`, while the next `startSession` opens an output context whose clock restarts at 0 (lines 76-77) | a reply queued to 58 s, then stop and start: the first new chunk at clock 0 starts at 58 s | a stop rewinds the cursor and stops the live nodes, so the next session plays at once | medium, not executed | LiveSession.RestartAsWritten, LiveSession.StaleCursorDelaysReply, LiveSession.RestartAfterLongReply | LiveSession.Stop, LiveSession.Restart, LiveSession.RestartPlaysAtOnce |

=== FILE: app.dfy ===
/**
 * The application shell: restoring the saved user at startup, persisting it
 * on login, clearing it on logout, and the render gate in front of the
 * router. Local storage is a map from key to string; `JSON.parse` and
 * `JSON.stringify` are the `parse` and `serialise` parameters.
 */
module App {
  import opened Wrappers

  /** The storage key of the signed-in user. */
  const UserKey: string := "nexus_user"

  /**
   * What `JSON.parse` does with a saved string: throw, or return a value.
   * `Parsed(None)` stands for a value that parses but is falsy (`null`,
   * `false`, `0`, `""`), which the render gate treats as "no user".
   */
  datatype ParseOutcome<U> = Malformed | Parsed(value: Option<U>)

  /** The shell's state: the current user, whether the restore ran, and local storage. */
  datatype AppState<U> = AppState(user: Option<U>, ready: bool, store: map<string, string>)

  /** The state on first render, before the restore effect. */
  function Initial<U>(store: map<string, string>): AppState<U>
  {
    AppState(None, false, store)
  }

  /**
   * The startup effect: a saved non-empty value that parses becomes the user;
   * one that fails to parse is removed; an absent or empty value is ignored.
   * The state is ready afterwards whatever happened.
   */
  function Restore<U>(s: AppState<U>, parse: string -> ParseOutcome<U>): (r: AppState<U>)
    ensures r.ready
    ensures UserKey !in s.store || s.store[UserKey] == "" ==> r == s.(ready := true)
    ensures UserKey in s.store && s.store[UserKey] != "" && parse(s.store[UserKey]).Parsed? ==>
              r == s.(user := parse(s.store[UserKey]).value, ready := true)
    ensures UserKey in s.store && s.store[UserKey] != "" && parse(s.store[UserKey]).Malformed? ==>
              r.user == s.user && r.store.Keys == s.store.Keys - {UserKey}
    ensures forall k :: k in s.store && k != UserKey ==> k in r.store && r.store[k] == s.store[k]
  {
    if UserKey in s.store && s.store[UserKey] != "" then
      match parse(s.store[UserKey])
      case Parsed(u) => s.(user := u, ready := true)
      case Malformed => s.(store := s.store - {UserKey}, ready := true)
    else
      s.(ready := true)
  }

  /** `handleLogin`: set the user and save its serialised form. */
  function HandleLogin<U>(s: AppState<U>, u: U, serialise: U -> string): (r: AppState<U>)
    ensures r.user == Some(u)
    ensures r.ready == s.ready
    ensures r.store.Keys == s.store.Keys + {UserKey}
    ensures r.store[UserKey] == serialise(u)
    ensures forall k :: k in s.store && k != UserKey ==> r.store[k] == s.store[k]
  {
    s.(user := Some(u), store := s.store[UserKey := serialise(u)])
  }

  /** `handleLogout`: clear the user and forget the saved one. */
  function HandleLogout<U>(s: AppState<U>): (r: AppState<U>)
    ensures r.user.None?
    ensures r.ready == s.ready
    ensures UserKey !in r.store
    ensures r.store.Keys == s.store.Keys - {UserKey}
    ensures forall k :: k in r.store ==> r.store[k] == s.store[k]
  {
    s.(user := None, store := s.store - {UserKey})
  }

  lemma LogoutIdempotent<U>(s: AppState<U>)
    ensures HandleLogout(HandleLogout(s)) == HandleLogout(s)
  {
  }

  /**
   * A user saved by `handleLogin` is the user restored on the next start,
   * provided `parse` reads back what `serialise` wrote.
   */
  lemma LoginSurvivesReload<U>(s: AppState<U>, u: U, serialise: U -> string, parse: string -> ParseOutcome<U>)
    requires parse(serialise(u)) == Parsed(Some(u))
    requires serialise(u) != ""
    ensures Restore(Initial(HandleLogin(s, u, serialise).store), parse).user == Some(u)
  {
  }

  /** After `handleLogout` the next start finds nobody, whatever `parse` does. */
  lemma LogoutSurvivesReload<U>(s: AppState<U>, parse: string -> ParseOutcome<U>)
    ensures Restore(Initial(HandleLogout(s).store), parse).user.None?
  {
  }

  /** The routed pages. */
  datatype Page = Dashboard | Academics | Transit | Career | Maps | Mentor | Ideas | Canvas | Branding | Scout

  /** The paths the route table names. */
  const RoutePaths: set<string> :=
    {"/", "/academics", "/transit", "/career", "/maps", "/mentor", "/ideas", "/canvas", "/branding", "/scout"}

  /** The route table: exactly the listed paths have a page, "/" is the dashboard; any other path redirects to "/". */
  function PageFor(path: string): (p: Option<Page>)
    ensures p.Some? <==> path in RoutePaths
    ensures path == "/" ==> p == Some(Dashboard)
  {
    match path
    case "/" => Some(Dashboard)
    case "/academics" => Some(Academics)
    case "/transit" => Some(Transit)
    case "/career" => Some(Career)
    case "/maps" => Some(Maps)
    case "/mentor" => Some(Mentor)
    case "/ideas" => Some(Ideas)
    case "/canvas" => Some(Canvas)
    case "/branding" => Some(Branding)
    case "/scout" => Some(Scout)
    case _ => None
  }

  /** No two routes lead to the same page. */
  lemma RoutesDistinct(a: string, b: string)
    requires a in RoutePaths && b in RoutePaths
    requires a != b
    ensures PageFor(a) != PageFor(b)
  {
  }

  /** What the shell renders at a path. */
  datatype View = Blank | LoginScreen | Redirect(to: string) | Show(page: Page)

  /** The render gate: nothing before the restore, the login screen with no user, else the router. */
  function Render<U>(s: AppState<U>, path: string): (v: View)
    ensures !s.ready <==> v == Blank
    ensures s.ready && s.user.None? <==> v == LoginScreen
    ensures v.Redirect? ==> v.to == "/" && PageFor(path).None?
    ensures v.Show? ==> s.ready && s.user.Some? && PageFor(path) == Some(v.page)
  {
    if !s.ready then Blank
    else if s.user.None? then LoginScreen
    else match PageFor(path)
      case Some(p) => Show(p)
      case None => Redirect("/")
  }

  /** With a user signed in, every path ends on a page: an unknown one after one redirect, on the dashboard. */
  lemma EveryPathLands<U>(s: AppState<U>, path: string)
    requires s.ready && s.user.Some?
    ensures Render(s, path).Show? || (Render(s, path).Redirect? && Render(s, Render(s, path).to) == Show(Dashboard))
  {
  }

  /** Signing in from the login screen leaves it for the router; signing out returns to it. */
  lemma LoginAndLogoutSwitchScreens<U>(s: AppState<U>, u: U, serialise: U -> string, path: string)
    requires s.ready
    ensures Render(HandleLogin(s, u, serialise), path) != LoginScreen
    ensures Render(HandleLogout(s), path) == LoginScreen
  {
  }
}

=== FILE: live_session.dfy ===
/**
 * The live voice mentor's session flags: `isActive`, `isConnecting` and the
 * held session (`sessionRef`), driven by the start button, the channel's
 * `onopen`/`onclose` callbacks, a failed start and `stopSession`.
 */
module LiveSession {
  import opened Wrappers
  import Pcm
  import Playback

  /** An open channel to the remote model, by name. */
  type SessionHandle = nat

  datatype Mentor = Mentor(isActive: bool, isConnecting: bool, session: Option<SessionHandle>)

  /** The component as first rendered. */
  function Initial(): Mentor
  {
    Mentor(false, false, None)
  }

  /** The phase the button shows: spinner, "End Session", or "Start Talking". */
  datatype Phase = Idle | Connecting | Active

  /** Connecting takes precedence in the rendering, then active. */
  function PhaseOf(m: Mentor): Phase
  {
    if m.isConnecting then Connecting else if m.isActive then Active else Idle
  }

  /** The two flags never hold together. */
  predicate Consistent(m: Mentor)
  {
    !(m.isActive && m.isConnecting)
  }

  /** `startSession` begins: the spinner shows. */
  function StartSession(m: Mentor): (r: Mentor)
    ensures PhaseOf(r) == Connecting
    ensures r.isActive == m.isActive && r.session == m.session
  {
    m.(isConnecting := true)
  }

  /** `onopen`: the channel is ready. */
  function OnOpen(m: Mentor): (r: Mentor)
    ensures PhaseOf(r) == Active
    ensures Consistent(r)
    ensures r.session == m.session
  {
    m.(isActive := true, isConnecting := false)
  }

  /** `onclose`: the channel is gone, whatever the phase was. */
  function OnClose(m: Mentor): (r: Mentor)
    ensures PhaseOf(r) == Idle
    ensures r.session == m.session
  {
    m.(isActive := false, isConnecting := false)
  }

  /** The `catch` of `startSession`: the spinner stops, an already-open session stays active. */
  function OnStartFailure(m: Mentor): (r: Mentor)
    ensures PhaseOf(r) != Connecting
    ensures r.isActive == m.isActive && r.session == m.session
    ensures Consistent(r)
  {
    m.(isConnecting := false)
  }

  /** `sessionRef.current = await sessionPromise`. */
  function OnConnected(m: Mentor, h: SessionHandle): (r: Mentor)
    ensures r.session == Some(h)
    ensures r.isActive == m.isActive && r.isConnecting == m.isConnecting
  {
    m.(session := Some(h))
  }

  /** The mentor after `stopSession`, and the session it closed if it held one. */
  datatype Stopped = Stopped(mentor: Mentor, closed: Option<SessionHandle>)

  /** `stopSession`: close and drop a held session, clear `isActive`; `isConnecting` is not touched. */
  function StopSession(m: Mentor): (r: Stopped)
    ensures r.closed == m.session
    ensures r.mentor.session.None?
    ensures !r.mentor.isActive
    ensures r.mentor.isConnecting == m.isConnecting
    ensures Consistent(r.mentor)
  {
    Stopped(m.(isActive := false, session := None), m.session)
  }

  /** Stopping twice is stopping once, and the second call closes nothing. */
  lemma StopIdempotent(m: Mentor)
    ensures StopSession(StopSession(m).mentor).mentor == StopSession(m).mentor
    ensures StopSession(StopSession(m).mentor).closed.None?
  {
  }

  /** What pressing the button does: it is disabled while connecting, stops while active, else starts. */
  function Press(m: Mentor): (r: Stopped)
    ensures m.isConnecting ==> r == Stopped(m, None)
    ensures !m.isConnecting && m.isActive ==> r == StopSession(m)
    ensures !m.isConnecting && !m.isActive ==> r == Stopped(StartSession(m), None)
  {
    if m.isConnecting then Stopped(m, None)
    else if m.isActive then StopSession(m)
    else Stopped(StartSession(m), None)
  }

  /** Everything that can happen to the component. */
  datatype Event = Pressed | Opened | Closed | StartFailed | Connected(h: SessionHandle)

  function Step(m: Mentor, e: Event): Mentor
  {
    match e
    case Pressed => Press(m).mentor
    case Opened => OnOpen(m)
    case Closed => OnClose(m)
    case StartFailed => OnStartFailure(m)
    case Connected(h) => OnConnected(m, h)
  }

  function Replay(m: Mentor, events: seq<Event>): Mentor
    decreases |events|
  {
    if |events| == 0 then m else Replay(Step(m, events[0]), events[1..])
  }

  /** Every event keeps the flags consistent. */
  lemma StepConsistent(m: Mentor, e: Event)
    requires Consistent(m)
    ensures Consistent(Step(m, e))
  {
  }

  /**
   * From the first render, whatever events arrive in whatever order, the
   * component is never shown both connecting and active.
   */
  lemma {:induction false} ReplayConsistent(m: Mentor, events: seq<Event>)
    requires Consistent(m)
    ensures Consistent(Replay(m, events))
    decreases |events|
  {
    if |events| > 0 {
      StepConsistent(m, events[0]);
      ReplayConsistent(Step(m, events[0]), events[1..]);
    }
  }

  /** The happy path: press, open, press again ends active-free with the session closed. */
  lemma StartOpenStop(h: SessionHandle)
    ensures var m := OnConnected(OnOpen(Press(Initial()).mentor), h);
            && PhaseOf(Press(Initial()).mentor) == Connecting
            && PhaseOf(m) == Active
            && Press(m) == Stopped(Initial(), Some(h))
  {
  }

  /**
   * The component with the playback refs it shares with the audio handler.
   * `nextStartTimeRef` and `sourcesRef` (lines 13-14) belong to the
   * component, not to a session, so they outlive a stop.
   */
  datatype Component = Component(mentor: Mentor, playback: Playback.Scheduler)

  /**
   * A stop followed by a start, as written: `stopSession` clears neither
   * playback ref, and `startSession` opens an output context whose clock
   * starts again from 0 (lines 76-77). The cursor and the live set survive,
   * measured against a clock that is gone.
   */
  function RestartAsWritten(c: Component): (r: Component)
    ensures PhaseOf(r.mentor) == Connecting && r.mentor.session.None?
    ensures !r.mentor.isActive
    ensures r.playback == c.playback
  {
    Component(StartSession(StopSession(c.mentor).mentor), c.playback)
  }

  /**
   * After a restart as written, the first reply chunk on the new clock waits
   * for the old cursor: it plays only after `cursor - clock` seconds of
   * silence, and the nodes of the old session are still counted as live.
   */
  lemma StaleCursorDelaysReply(c: Component, bytes: seq<Pcm.Byte>, clock: real)
    requires Playback.Decodable(bytes)
    requires 0.0 <= clock < c.playback.nextStartTime
    ensures var reply := Playback.OnMessage(RestartAsWritten(c).playback, Playback.Message(Some(bytes), false), clock);
            && reply.started.Some?
            && reply.started.value.startAt == c.playback.nextStartTime
            && reply.started.value.startAt - clock > 0.0
            && c.playback.live <= reply.scheduler.live
  {
  }

  /** A session that queued audio up to 58 s, stopped and restarted: its first reply starts 58 s late. */
  lemma RestartAfterLongReply()
    ensures var c := Component(Mentor(true, false, Some(1)), Playback.Scheduler(58.0, {}, 7));
            var reply := Playback.OnMessage(RestartAsWritten(c).playback, Playback.Message(Some([0, 0]), false), 0.0);
            reply.started.Some? && reply.started.value.startAt == 58.0
  {
    var c := Component(Mentor(true, false, Some(1)), Playback.Scheduler(58.0, {}, 7));
    StaleCursorDelaysReply(c, [0, 0], 0.0);
  }

  /** What a stop leaves behind: the component, the session it closed, the nodes it silenced. */
  datatype Halted = Halted(component: Component, closed: Option<SessionHandle>, silenced: set<Playback.SourceId>)

  /**
   * Stopping the whole component: `stopSession` for the flags and the
   * session, and the playback reset a fresh output clock needs, which stops
   * every live node and rewinds the cursor to 0 as an interruption does.
   */
  function Stop(c: Component): (r: Halted)
    ensures r.component.mentor == StopSession(c.mentor).mentor
    ensures r.closed == c.mentor.session
    ensures r.silenced == c.playback.live
    ensures r.component.playback.live == {} && r.component.playback.nextStartTime == 0.0
    ensures Playback.Valid(c.playback) ==> Playback.Valid(r.component.playback)
  {
    var reset := Playback.Interrupt(c.playback);
    Halted(Component(StopSession(c.mentor).mentor, reset.scheduler), c.mentor.session, reset.stopped)
  }

  /** A stop followed by a start, with the playback reset. */
  function Restart(c: Component): (r: Halted)
    ensures PhaseOf(r.component.mentor) == Connecting && r.component.mentor.session.None?
    ensures r.closed == c.mentor.session && r.silenced == c.playback.live
    ensures r.component.playback.live == {}
  {
    var halted := Stop(c);
    halted.(component := halted.component.(mentor := StartSession(halted.component.mentor)))
  }

  /**
   * After a restart with the reset, the first reply chunk starts at once on
   * the new clock, whatever the old session had queued.
   */
  lemma RestartPlaysAtOnce(c: Component, bytes: seq<Pcm.Byte>, clock: real)
    requires Playback.Decodable(bytes)
    requires clock >= 0.0
    ensures var reply := Playback.OnMessage(Restart(c).component.playback, Playback.Message(Some(bytes), false), clock);
            reply.started.Some? && reply.started.value.startAt == clock
  {
  }
}

=== FILE: login.dfy ===
/**
 * The credential validator and account registry behind the login screen
 * (`handleAuth`). The account store `nexus_accounts` is a map from email to
 * account record; the simulated network delay has no observable effect and is
 * not modelled.
 */
module Login {
  import opened Wrappers

  const EmailSuffix: string := "@somaiya.edu"
  const MinPasswordLength: nat := 6

  const EmailRequired: string := "Official @somaiya.edu email required."
  const PasswordTooShort: string := "Password must be at least 6 characters."
  const DetailsMissing: string := "Please fill in all registration details."
  const UserExists: string := "User already exists. Please login."
  const NoAccount: string := "No account found with this email."
  const WrongPassword: string := "Incorrect password. Please try again."

  /** One stored account; the same record is handed to `onLogin`. */
  datatype Account = Account(name: string, email: string, password: string, branch: string, batch: string)

  /** The parsed `nexus_accounts` object, keyed by email. */
  type Accounts = map<string, Account>

  /** The login screen's input fields and its register/login toggle. */
  datatype Form = Form(isRegistering: bool, email: string, password: string,
                       name: string, branch: string, batch: string)

  /** Either the error message the screen shows, or the account passed to `onLogin`. */
  datatype Outcome = Rejected(message: string) | LoggedIn(account: Account)

  datatype AuthResult = AuthResult(outcome: Outcome, accounts: Accounts)

  /** `String.prototype.endsWith`: `s` is some prefix followed by `suffix`. */
  predicate EndsWith(s: string, suffix: string)
    ensures EndsWith(s, suffix) <==> |suffix| <= |s| && s[..|s| - |suffix|] + suffix == s
  {
    |suffix| <= |s| && s[|s| - |suffix|..] == suffix
  }

  /** Whatever comes before it, a string ending in `suffix` ends with `suffix`. */
  lemma EndsWithAppended(prefix: string, suffix: string)
    ensures EndsWith(prefix + suffix, suffix)
  {
    assert (prefix + suffix)[|prefix|..] == suffix;
  }

  /** Every stored account sits under its own email. */
  ghost predicate WellKeyed(accounts: Accounts)
  {
    forall e :: e in accounts ==> accounts[e].email == e
  }

  /**
   * Every form check that fails, in the order the handler lists them. This is
   * an independent account of the checks; the handler stops at the first.
   */
  function FailingChecks(f: Form): seq<string>
  {
    (if !EndsWith(f.email, EmailSuffix) then [EmailRequired] else [])
    + (if |f.password| < MinPasswordLength then [PasswordTooShort] else [])
    + (if f.isRegistering && (f.branch == "" || f.batch == "" || f.name == "") then [DetailsMissing] else [])
  }

  /** The synchronous checks of `handleAuth`: the first failing one wins. */
  function Validate(f: Form): (error: Option<string>)
    ensures error.None? <==> FailingChecks(f) == []
    ensures error.Some? ==> error.value == FailingChecks(f)[0]
    ensures error == Some(PasswordTooShort) ==> EndsWith(f.email, EmailSuffix)
    ensures error == Some(DetailsMissing) ==> f.isRegistering && EndsWith(f.email, EmailSuffix)
                                              && |f.password| >= MinPasswordLength
  {
    if !EndsWith(f.email, EmailSuffix) then Some(EmailRequired)
    else if |f.password| < MinPasswordLength then Some(PasswordTooShort)
    else if f.isRegistering && (f.branch == "" || f.batch == "" || f.name == "") then Some(DetailsMissing)
    else None
  }

  /** The registration branch, run once the form checks passed. */
  function Register(f: Form, accounts: Accounts): (r: AuthResult)
    ensures f.email in accounts ==> r == AuthResult(Rejected(UserExists), accounts)
    ensures f.email !in accounts ==>
              && r.outcome.LoggedIn?
              && r.outcome.account == Account(f.name, f.email, f.password, f.branch, f.batch)
              && r.accounts.Keys == accounts.Keys + {f.email}
              && |r.accounts| == |accounts| + 1
              && r.accounts[f.email] == r.outcome.account
              && (forall e :: e in accounts ==> r.accounts[e] == accounts[e])
  {
    if f.email in accounts then
      AuthResult(Rejected(UserExists), accounts)
    else
      var newUser := Account(f.name, f.email, f.password, f.branch, f.batch);
      AuthResult(LoggedIn(newUser), accounts[f.email := newUser])
  }

  /** The login branch: it reads the store and never writes it. */
  function SignIn(f: Form, accounts: Accounts): (r: AuthResult)
    ensures r.accounts == accounts
    ensures f.email !in accounts <==> r.outcome == Rejected(NoAccount)
    ensures r.outcome == Rejected(WrongPassword) <==>
              f.email in accounts && accounts[f.email].password != f.password
    ensures r.outcome.LoggedIn? <==> f.email in accounts && accounts[f.email].password == f.password
    ensures r.outcome.LoggedIn? ==> r.outcome.account == accounts[f.email]
  {
    if f.email !in accounts then AuthResult(Rejected(NoAccount), accounts)
    else if accounts[f.email].password != f.password then AuthResult(Rejected(WrongPassword), accounts)
    else AuthResult(LoggedIn(accounts[f.email]), accounts)
  }

  /** `handleAuth`: the form checks, then registration or login against the store. */
  function HandleAuth(f: Form, accounts: Accounts): (r: AuthResult)
    ensures Validate(f).Some? ==> r == AuthResult(Rejected(FailingChecks(f)[0]), accounts)
    ensures !f.isRegistering ==> r.accounts == accounts
    ensures r.outcome.LoggedIn? ==> FailingChecks(f) == [] && r.outcome.account.password == f.password
    ensures r.accounts != accounts ==> f.isRegistering && r.outcome.LoggedIn? && f.email !in accounts
    ensures FailingChecks(f) == [] ==>
              r == (if f.isRegistering then Register(f, accounts) else SignIn(f, accounts))
  {
    match Validate(f)
    case Some(message) => AuthResult(Rejected(message), accounts)
    case None => if f.isRegistering then Register(f, accounts) else SignIn(f, accounts)
  }

  /**
   * The store keeps every account under its own email, and whoever logs in
   * is the record stored under their email.
   */
  lemma StoreStaysWellKeyed(f: Form, accounts: Accounts)
    requires WellKeyed(accounts)
    ensures WellKeyed(HandleAuth(f, accounts).accounts)
    ensures var r := HandleAuth(f, accounts);
            r.outcome.LoggedIn? ==>
              r.outcome.account.email == f.email
              && r.outcome.account.email in r.accounts && r.accounts[r.outcome.account.email] == r.outcome.account
  {
  }

  /** The error line the screen shows afterwards: cleared first, then at most one message. */
  function ErrorShown(r: AuthResult): string
  {
    match r.outcome
    case Rejected(message) => message
    case LoggedIn(_) => ""
  }

  /** The message shown is the first failing form check, and only a failing check or a store answer shows one. */
  lemma ErrorIsFirstFailingCheck(f: Form, accounts: Accounts)
    ensures FailingChecks(f) != [] ==> ErrorShown(HandleAuth(f, accounts)) == FailingChecks(f)[0]
    ensures FailingChecks(f) == [] && !f.isRegistering ==>
              ErrorShown(HandleAuth(f, accounts)) in {"", NoAccount, WrongPassword}
    ensures FailingChecks(f) == [] && f.isRegistering ==>
              ErrorShown(HandleAuth(f, accounts)) in {"", UserExists}
  {
  }

  /** A bad email gives exactly the email message and leaves the store alone, whatever else is wrong. */
  lemma BadEmailRejected(f: Form, accounts: Accounts)
    requires !EndsWith(f.email, EmailSuffix)
    ensures HandleAuth(f, accounts) == AuthResult(Rejected(EmailRequired), accounts)
  {
  }

  /** Login mode never looks at the registration fields. */
  lemma LoginIgnoresRegistrationFields(f: Form, g: Form, accounts: Accounts)
    requires !f.isRegistering && !g.isRegistering
    requires f.email == g.email && f.password == g.password
    ensures HandleAuth(f, accounts) == HandleAuth(g, accounts)
  {
  }

  /** Registering and then logging in with the same email and password yields the stored record. */
  lemma RegisterThenSignIn(f: Form, accounts: Accounts)
    requires f.isRegistering
    requires HandleAuth(f, accounts).outcome.LoggedIn?
    ensures var registered := HandleAuth(f, accounts);
            var login := f.(isRegistering := false);
            HandleAuth(login, registered.accounts) == AuthResult(registered.outcome, registered.accounts)
  {
    var registered := HandleAuth(f, accounts);
    var login := f.(isRegistering := false);
    assert Validate(login).None? by {
      assert FailingChecks(f) == [];
    }
  }

  /** A second registration of the same email is refused and changes nothing. */
  lemma RegisterTwiceRefused(f: Form, accounts: Accounts)
    requires f.isRegistering
    requires HandleAuth(f, accounts).outcome.LoggedIn?
    ensures var registered := HandleAuth(f, accounts).accounts;
            HandleAuth(f, registered) == AuthResult(Rejected(UserExists), registered)
  {
  }
}

=== FILE: pcm.dfy ===
/**
 * The byte and sample transforms of the live voice mentor: the two loops that
 * sit around base64 (`decode`, `encode`), the de-interleaving of 16-bit PCM
 * into per-channel float buffers (`decodeAudioData`) and the framing of a
 * microphone buffer into an outbound blob (`createBlob`).
 *
 * Each loop of the source is a method; next to it stands a pure reference
 * definition that the round-trip lemmas are stated over.
 */
module Pcm {

  /** One element of a Uint8Array. */
  type Byte = x: int | 0 <= x < 256

  /** One element of an Int16Array. */
  type Int16 = x: int | -32768 <= x < 32768

  /** The divisor that maps an int16 sample onto [-1, 1). */
  const SampleScale: real := 32768.0

  /** The tag every outbound microphone frame carries. */
  const InputMimeType: string := "audio/pcm;rate=16000"

  /** A binary string: every char code fits in one byte, as `atob` produces and `btoa` demands. */
  predicate IsBinaryString(s: string)
  {
    forall i :: 0 <= i < |s| ==> s[i] as int < 256
  }

  /** Storing a number into a Uint8Array keeps its low eight bits. */
  function ToUint8(code: int): Byte
  {
    code % 256
  }

  // ---------------------------------------------------------------------------
  // The loops around base64.

  /** Reference definition of `decode`'s loop: byte i is the code of char i. */
  function BinaryToBytes(binary: string): seq<Byte>
  {
    seq(|binary|, i requires 0 <= i < |binary| => ToUint8(binary[i] as int))
  }

  /** Reference definition of `encode`'s loop: char i is `String.fromCharCode(bytes[i])`. */
  function BytesToBinary(bytes: seq<Byte>): string
  {
    seq(|bytes|, i requires 0 <= i < |bytes| => bytes[i] as char)
  }

  /** The loop of `decode` after `atob`: one byte per char, same length. */
  method Decode(binary: string) returns (bytes: seq<Byte>)
    ensures |bytes| == |binary|
    ensures IsBinaryString(binary) ==> forall i :: 0 <= i < |binary| ==> bytes[i] == binary[i] as int
    ensures bytes == BinaryToBytes(binary)
  {
    bytes := [];
    var i := 0;
    while i < |binary|
      invariant 0 <= i <= |binary|
      invariant |bytes| == i
      invariant forall j :: 0 <= j < i ==> bytes[j] == ToUint8(binary[j] as int)
    {
      bytes := bytes + [ToUint8(binary[i] as int)];
      i := i + 1;
    }
  }

  /** The loop of `encode` before `btoa`: one char per byte, same length, always a binary string. */
  method Encode(bytes: seq<Byte>) returns (binary: string)
    ensures |binary| == |bytes|
    ensures IsBinaryString(binary)
    ensures forall i :: 0 <= i < |bytes| ==> binary[i] as int == bytes[i]
    ensures binary == BytesToBinary(bytes)
  {
    binary := "";
    var i := 0;
    while i < |bytes|
      invariant 0 <= i <= |bytes|
      invariant |binary| == i
      invariant forall j :: 0 <= j < i ==> binary[j] == bytes[j] as char
    {
      binary := binary + [bytes[i] as char];
      i := i + 1;
    }
  }

  /** bytes -> chars -> bytes is the identity. */
  lemma BytesRoundTrip(bytes: seq<Byte>)
    ensures BinaryToBytes(BytesToBinary(bytes)) == bytes
  {
    var r := BinaryToBytes(BytesToBinary(bytes));
    forall i | 0 <= i < |bytes|
      ensures r[i] == bytes[i]
    {
      assert BytesToBinary(bytes)[i] as int == bytes[i];
    }
  }

  /** chars -> bytes -> chars is the identity exactly on binary strings. */
  lemma BinaryRoundTrip(binary: string)
    ensures BytesToBinary(BinaryToBytes(binary)) == binary <==> IsBinaryString(binary)
  {
    var r := BytesToBinary(BinaryToBytes(binary));
    if IsBinaryString(binary) {
      forall i | 0 <= i < |binary|
        ensures r[i] == binary[i]
      {
        assert BinaryToBytes(binary)[i] == binary[i] as int;
      }
    } else {
      var i :| 0 <= i < |binary| && binary[i] as int >= 256;
      assert r[i] as int < 256;
    }
  }

  // ---------------------------------------------------------------------------
  // Little-endian 16-bit packing, as `new Uint8Array(int16.buffer)` and
  // `new Int16Array(bytes.buffer)` see it on a little-endian host.

  /** The two's-complement bit pattern of a sample. */
  function Bits(s: Int16): (u: nat)
    ensures u < 65536
    ensures u % 65536 == s % 65536
  {
    if s < 0 then s + 65536 else s
  }

  /** Reads a 16-bit pattern back as a signed sample. */
  function FromBits(u: nat): (s: Int16)
    requires u < 65536
    ensures s % 65536 == u
  {
    if u >= 32768 then u - 65536 else u
  }

  /** The bytes of an Int16Array's buffer: low byte first. */
  function PackLE(samples: seq<Int16>): (bytes: seq<Byte>)
    ensures |bytes| == 2 * |samples|
  {
    if |samples| == 0 then []
    else [Bits(samples[0]) % 256, Bits(samples[0]) / 256] + PackLE(samples[1..])
  }

  /** The Int16Array view of a byte buffer of even length. */
  function UnpackLE(bytes: seq<Byte>): (samples: seq<Int16>)
    requires |bytes| % 2 == 0
    ensures 2 * |samples| == |bytes|
  {
    if |bytes| == 0 then []
    else [FromBits(bytes[0] as int + 256 * bytes[1] as int)] + UnpackLE(bytes[2..])
  }

  lemma BitsSplit(s: Int16)
    ensures FromBits(Bits(s) % 256 + 256 * (Bits(s) / 256)) == s
  {
  }

  lemma BytesJoin(lo: Byte, hi: Byte)
    ensures Bits(FromBits(lo + 256 * hi)) % 256 == lo
    ensures Bits(FromBits(lo + 256 * hi)) / 256 == hi
  {
  }

  /** Sample i of the Int16Array view is made of bytes 2i and 2i+1. */
  lemma {:induction false} UnpackAt(bytes: seq<Byte>, i: nat)
    requires |bytes| % 2 == 0
    requires i < |bytes| / 2
    ensures UnpackLE(bytes)[i] == FromBits(bytes[2 * i] as int + 256 * bytes[2 * i + 1] as int)
    decreases i
  {
    if i > 0 {
      UnpackAt(bytes[2..], i - 1);
    }
  }

  /** samples -> bytes -> samples is the identity. */
  lemma {:induction false} PackRoundTrip(samples: seq<Int16>)
    ensures UnpackLE(PackLE(samples)) == samples
  {
    if |samples| > 0 {
      var packed := PackLE(samples);
      assert packed[2..] == PackLE(samples[1..]);
      PackRoundTrip(samples[1..]);
      BitsSplit(samples[0]);
    }
  }

  /** bytes -> samples -> bytes is the identity on every buffer of even length. */
  lemma {:induction false} UnpackRoundTrip(bytes: seq<Byte>)
    requires |bytes| % 2 == 0
    ensures PackLE(UnpackLE(bytes)) == bytes
  {
    if |bytes| > 0 {
      var samples := UnpackLE(bytes);
      assert samples[1..] == UnpackLE(bytes[2..]);
      UnpackRoundTrip(bytes[2..]);
      BytesJoin(bytes[0], bytes[1]);
    }
  }

  // ---------------------------------------------------------------------------
  // `decodeAudioData`: planar float channels out of interleaved int16 samples.

  /** A Web Audio buffer: one float sequence per channel, all of one length. */
  datatype AudioBuffer = AudioBuffer(sampleRate: nat, channels: seq<seq<real>>) {

    /** The number of sample frames; zero when there is no channel. */
    function Length(): nat
    {
      if |channels| == 0 then 0 else |channels[0]|
    }

    /** Playback time in seconds, as `AudioBuffer.duration` reports it. */
    function Duration(): real
      requires sampleRate > 0
    {
      Length() as real / sampleRate as real
    }
  }

  /** A sample as the float the playback buffer stores. */
  function ToFloat(s: Int16): real
  {
    s as real / SampleScale
  }

  lemma FloatRange(s: Int16)
    ensures -1.0 <= ToFloat(s) < 1.0
  {
  }

  /**
   * Channel `c` of an interleaved stream of `n` channels: sample `c` of every
   * whole frame, as a float. A trailing partial frame contributes nothing.
   */
  function Column(samples: seq<Int16>, n: nat, c: nat): seq<real>
    requires c < n
    decreases |samples|
  {
    if |samples| < n then [] else [ToFloat(samples[c])] + Column(samples[n..], n, c)
  }

  lemma DivUnique(a: int, n: int, q: int, r: int)
    requires n > 0
    requires 0 <= r < n
    requires a == q * n + r
    ensures a / n == q
  {
    var q', r' := a / n, a % n;
    assert q' * n + r' == q * n + r;
    if q' > q {
      MulAtLeast(q' - q, n);
    } else if q' < q {
      MulAtLeast(q - q', n);
    }
  }

  lemma MulAtLeast(k: int, n: int)
    requires k >= 1
    requires n > 0
    ensures k * n >= n
  {
    assert k * n == (k - 1) * n + n;
  }

  lemma DivStep(len: nat, n: nat)
    requires 0 < n <= len
    ensures (len - n) / n == len / n - 1
  {
    var q, r := len / n, len % n;
    assert len == q * n + r;
    assert len - n == (q - 1) * n + r;
    DivUnique(len - n, n, q - 1, r);
  }

  /** A channel has one entry per whole frame. */
  lemma {:induction false} ColumnLength(samples: seq<Int16>, n: nat, c: nat)
    requires c < n
    ensures |Column(samples, n, c)| == |samples| / n
    decreases |samples|
  {
    if |samples| >= n {
      ColumnLength(samples[n..], n, c);
      DivStep(|samples|, n);
    }
  }

  /** Frame `i` of channel `c` is interleaved sample `i * n + c`. */
  lemma {:induction false} ColumnAt(samples: seq<Int16>, n: nat, c: nat, i: nat)
    requires c < n
    requires i < |Column(samples, n, c)|
    ensures i * n + c < |samples|
    ensures Column(samples, n, c)[i] == ToFloat(samples[i * n + c])
    decreases i
  {
    if i > 0 {
      ColumnAt(samples[n..], n, c, i - 1);
      assert (i - 1) * n + c + n == i * n + c;
    }
  }

  /** Reference definition of `decodeAudioData` on the int16 view of the data: one column per channel. */
  function Deinterleave(samples: seq<Int16>, numChannels: nat): (channels: seq<seq<real>>)
    requires numChannels > 0
  {
    seq(numChannels, c requires 0 <= c < numChannels => Column(samples, numChannels, c))
  }

  /**
   * The inner loop of `decodeAudioData`: frame i of `channel` is interleaved
   * sample `i * numChannels + channel` over 32768, for every whole frame.
   */
  method ChannelData(dataInt16: seq<Int16>, numChannels: nat, channel: nat) returns (channelData: seq<real>)
    requires channel < numChannels
    ensures |channelData| == |dataInt16| / numChannels
    ensures forall i :: 0 <= i < |channelData| ==> -1.0 <= channelData[i] < 1.0
    ensures channelData == Column(dataInt16, numChannels, channel)
  {
    var frameCount := |dataInt16| / numChannels;
    ColumnLength(dataInt16, numChannels, channel);
    channelData := [];
    var i := 0;
    while i < frameCount
      invariant 0 <= i <= frameCount
      invariant |channelData| == i
      invariant forall j :: 0 <= j < i ==> channelData[j] == Column(dataInt16, numChannels, channel)[j]
      invariant forall j :: 0 <= j < i ==> -1.0 <= channelData[j] < 1.0
    {
      ColumnAt(dataInt16, numChannels, channel, i);
      FloatRange(dataInt16[i * numChannels + channel]);
      channelData := channelData + [ToFloat(dataInt16[i * numChannels + channel])];
      i := i + 1;
    }
  }

  /**
   * `decodeAudioData(data, ctx, sampleRate, numChannels)`: channel c, frame i
   * is int16 sample `i * numChannels + c` divided by 32768. The source does
   * not check its input. An odd byte count makes the Int16Array view throw,
   * and `createBuffer` throws on a buffer with no whole frame and on a sample
   * rate of 0, so all three are demanded of the caller. A fractional frame
   * count is truncated by `createBuffer`, and the loop's extra pass writes
   * past the end of the channel, which a Float32Array ignores; so a trailing
   * partial frame is dropped, as `Column` drops it.
   */
  method DecodeAudioData(data: seq<Byte>, sampleRate: nat, numChannels: nat) returns (buffer: AudioBuffer)
    requires |data| % 2 == 0
    requires numChannels > 0
    requires |data| / 2 >= numChannels
    requires sampleRate > 0
    ensures buffer.sampleRate == sampleRate
    ensures |buffer.channels| == numChannels
    ensures forall c :: 0 <= c < numChannels ==> |buffer.channels[c]| == (|data| / 2) / numChannels
    ensures forall c, i :: 0 <= c < numChannels && 0 <= i < |buffer.channels[c]| ==>
              -1.0 <= buffer.channels[c][i] < 1.0
    ensures forall c :: 0 <= c < numChannels ==> buffer.channels[c] == Column(UnpackLE(data), numChannels, c)
  {
    var dataInt16 := UnpackLE(data);
    assert |dataInt16| == |data| / 2;
    var channels: seq<seq<real>> := [];
    var channel := 0;
    while channel < numChannels
      invariant 0 <= channel <= numChannels
      invariant |channels| == channel
      invariant forall c :: 0 <= c < channel ==> channels[c] == Column(dataInt16, numChannels, c)
      invariant forall c :: 0 <= c < channel ==> |channels[c]| == |dataInt16| / numChannels
      invariant forall c, i :: 0 <= c < channel && 0 <= i < |channels[c]| ==> -1.0 <= channels[c][i] < 1.0
    {
      var channelData := ChannelData(dataInt16, numChannels, channel);
      channels := channels + [channelData];
      channel := channel + 1;
    }
    buffer := AudioBuffer(sampleRate, channels);
  }

  /**
   * No sample is lost or moved by de-interleaving: interleaved sample k sits in
   * channel k % n at frame k / n, scaled by 1/32768.
   */
  lemma DeinterleaveKeepsEverySample(samples: seq<Int16>, n: nat, k: nat)
    requires n > 0
    requires |samples| % n == 0
    requires k < |samples|
    ensures k / n < |Deinterleave(samples, n)[k % n]|
    ensures Deinterleave(samples, n)[k % n][k / n] * SampleScale == samples[k] as real
  {
    var frame, c := k / n, k % n;
    FrameInRange(k, n, |samples|);
    ColumnLength(samples, n, c);
    ColumnAt(samples, n, c, frame);
    assert Deinterleave(samples, n)[c] == Column(samples, n, c);
  }

  /** Sample k of a whole number of frames lies in frame k / n, at offset k % n. */
  lemma FrameInRange(k: nat, n: nat, len: nat)
    requires n > 0
    requires len % n == 0
    requires k < len
    ensures k / n < len / n
    ensures k == (k / n) * n + k % n
  {
    var frame, frames := k / n, len / n;
    assert len == frames * n;
    if frame >= frames {
      MulMonotone(frames, frame, n);
      assert false;
    }
  }

  lemma MulMonotone(a: nat, b: nat, n: nat)
    requires a <= b
    ensures a * n <= b * n
  {
    assert b * n == a * n + (b - a) * n;
  }

  // ---------------------------------------------------------------------------
  // `createBlob`: the outbound microphone frame.

  /** What `sendRealtimeInput` receives: base64 text and its format tag. */
  datatype Blob = Blob(data: string, mimeType: string)

  /** The quantised frame, one int16 per float sample. */
  function Quantise(frame: seq<real>, toInt16: real -> Int16): (samples: seq<Int16>)
  {
    seq(|frame|, i requires 0 <= i < |frame| => toInt16(frame[i]))
  }

  /**
   * `createBlob(data)`: one int16 per sample (the float-to-int16 store is the
   * `toInt16` parameter), the Int16Array's bytes turned into a binary string
   * and then `btoa` (the `btoa` parameter), tagged `audio/pcm;rate=16000`.
   */
  method CreateBlob(frame: seq<real>, toInt16: real -> Int16, btoa: string -> string) returns (blob: Blob)
    ensures blob.mimeType == InputMimeType
    ensures blob.data == btoa(BytesToBinary(PackLE(Quantise(frame, toInt16))))
    ensures |PackLE(Quantise(frame, toInt16))| == 2 * |frame|
  {
    var int16: seq<Int16> := [];
    var i := 0;
    while i < |frame|
      invariant 0 <= i <= |frame|
      invariant |int16| == i
      invariant forall j :: 0 <= j < i ==> int16[j] == toInt16(frame[j])
    {
      int16 := int16 + [toInt16(frame[i])];
      i := i + 1;
    }
    assert int16 == Quantise(frame, toInt16);
    var binary := Encode(PackLE(int16));
    blob := Blob(btoa(binary), InputMimeType);
  }

  /**
   * A frame sent by `createBlob` and received by `decode` + `decodeAudioData`
   * (one channel) comes back as the quantised samples over 32768, provided the
   * transport's `atob` undoes its `btoa`.
   */
  lemma {:induction false} WireRoundTrip(frame: seq<real>, toInt16: real -> Int16, btoa: string -> string,
                                         atob: string -> string, i: nat)
    requires forall s :: atob(btoa(s)) == s
    requires i < |frame|
    ensures var bytes := BinaryToBytes(atob(btoa(BytesToBinary(PackLE(Quantise(frame, toInt16))))));
            && |bytes| % 2 == 0
            && |Deinterleave(UnpackLE(bytes), 1)[0]| == |frame|
            && Deinterleave(UnpackLE(bytes), 1)[0][i] == toInt16(frame[i]) as real / SampleScale
  {
    var samples := Quantise(frame, toInt16);
    var packed := PackLE(samples);
    assert atob(btoa(BytesToBinary(packed))) == BytesToBinary(packed);
    BytesRoundTrip(packed);
    PackRoundTrip(samples);
    ColumnLength(samples, 1, 0);
    ColumnAt(samples, 1, 0, i);
  }
}

=== FILE: playback.dfy ===
/**
 * The playback side of the live voice mentor's `onmessage` handler: every
 * audio chunk is scheduled on the output context's timeline at
 * `max(nextStartTime, currentTime)`, the cursor then moves to the chunk's
 * end, and an interruption stops every live source and resets the cursor.
 *
 * Audio nodes are named by fresh numbers; the output clock `currentTime` is a
 * parameter of each handler call.
 */
module Playback {
  import opened Wrappers
  import Pcm

  /** The output context's sample rate and channel count for model audio. */
  const OutputSampleRate: nat := 24000
  const OutputChannels: nat := 1

  type SourceId = nat

  /** One `AudioBufferSourceNode` and where it was put on the timeline. */
  datatype Source = Source(id: SourceId, startAt: real, duration: real) {
    function End(): real { startAt + duration }
  }

  /** `nextStartTimeRef`, `sourcesRef` and the supply of fresh node names. */
  datatype Scheduler = Scheduler(nextStartTime: real, live: set<SourceId>, nextId: SourceId)

  /** The refs as the component first creates them. */
  function Initial(): Scheduler
  {
    Scheduler(0.0, {}, 0)
  }

  /** The cursor is never negative and every live node was handed out earlier. */
  predicate Valid(s: Scheduler)
  {
    s.nextStartTime >= 0.0 && forall id :: id in s.live ==> id < s.nextId
  }

  /**
   * One server message as the handler sees it: the audio bytes of the first
   * part (after `decode`), `None` when there is no inline data or it is the
   * empty string, and the interrupted flag.
   */
  datatype Message = Message(audio: Option<seq<Pcm.Byte>>, interrupted: bool)

  /**
   * A chunk `decodeAudioData(bytes, ctx, 24000, 1)` accepts: an odd byte
   * count makes the Int16Array view throw, and an empty buffer makes
   * `createBuffer` throw.
   */
  predicate Decodable(bytes: seq<Pcm.Byte>)
  {
    |bytes| % 2 == 0 && |bytes| > 0
  }

  /** `Math.max` on the timeline. */
  function Max(a: real, b: real): (m: real)
    ensures m >= a && m >= b
    ensures m == a || m == b
  {
    if a >= b then a else b
  }

  /** The playback buffer `decodeAudioData(bytes, ctx, 24000, 1)` builds. */
  function ChunkBuffer(bytes: seq<Pcm.Byte>): (b: Pcm.AudioBuffer)
    requires |bytes| % 2 == 0
    ensures b.sampleRate == OutputSampleRate
    ensures |b.channels| == OutputChannels
    ensures b.Length() * 2 == |bytes|
  {
    Pcm.ColumnLength(Pcm.UnpackLE(bytes), OutputChannels, 0);
    Pcm.AudioBuffer(OutputSampleRate, Pcm.Deinterleave(Pcm.UnpackLE(bytes), OutputChannels))
  }

  /** The scheduler after placing one buffer, and the node placed. */
  datatype Placed = Placed(scheduler: Scheduler, source: Source)

  /** Lines 110 and 120-122: start at `max(cursor, clock)`, advance by the duration, register the node. */
  function Schedule(s: Scheduler, duration: real, clock: real): (r: Placed)
    requires duration >= 0.0
    ensures r.source.startAt >= clock && r.source.startAt >= s.nextStartTime
    ensures r.source.startAt == clock || r.source.startAt == s.nextStartTime
    ensures clock <= s.nextStartTime ==> r.source.startAt == s.nextStartTime
    ensures r.source.duration == duration
    ensures r.scheduler.nextStartTime == r.source.End()
    ensures r.scheduler.live == s.live + {r.source.id}
    ensures r.source.id == s.nextId && r.scheduler.nextId == s.nextId + 1
    ensures Valid(s) ==> r.source.id !in s.live && Valid(r.scheduler)
  {
    var startAt := Max(s.nextStartTime, clock);
    var source := Source(s.nextId, startAt, duration);
    Placed(Scheduler(startAt + duration, s.live + {s.nextId}, s.nextId + 1), source)
  }

  /** What one call of the handler did. */
  datatype Reaction = Reaction(scheduler: Scheduler, started: Option<Source>, stopped: set<SourceId>)

  /** Lines 126-133: stop and forget every live node, rewind the cursor. */
  function Interrupt(s: Scheduler): (r: Reaction)
    ensures r.stopped == s.live
    ensures r.started.None?
    ensures r.scheduler.live == {}
    ensures r.scheduler.nextStartTime == 0.0
    ensures r.scheduler.nextId == s.nextId
    ensures Valid(r.scheduler)
  {
    Reaction(Scheduler(0.0, {}, s.nextId), None, s.live)
  }

  /**
   * `onmessage`: audio is scheduled first, the interruption check follows, so
   * a chunk that arrives together with an interruption is stopped at once.
   * A chunk `decodeAudioData` rejects throws after line 110 has already moved
   * the cursor to `max(cursor, clock)`; the rest of the handler, including the
   * interruption check, is then skipped.
   */
  function OnMessage(s: Scheduler, m: Message, clock: real): (r: Reaction)
    ensures r.started.Some? <==> m.audio.Some? && Decodable(m.audio.value)
    ensures r.started.Some? ==> (r.started.value.startAt == clock || r.started.value.startAt == s.nextStartTime)
                                && r.started.value.startAt >= clock
                                && r.started.value.startAt >= s.nextStartTime
                                && r.started.value.duration == ChunkBuffer(m.audio.value).Duration()
    ensures m.audio.Some? && !Decodable(m.audio.value) ==>
              r.stopped == {} && r.scheduler == s.(nextStartTime := Max(s.nextStartTime, clock))
    ensures !m.interrupted ==> r.stopped == {} && r.scheduler.nextStartTime >= s.nextStartTime
    ensures !m.interrupted && r.started.Some? ==>
              r.scheduler.live == s.live + {r.started.value.id}
              && r.scheduler.nextStartTime == r.started.value.End()
    ensures !m.interrupted && m.audio.None? ==> r.scheduler == s
    ensures m.interrupted && (m.audio.None? || Decodable(m.audio.value)) ==>
              && r.scheduler.live == {}
              && r.scheduler.nextStartTime == 0.0
              && r.stopped == s.live + (if r.started.Some? then {r.started.value.id} else {})
    ensures r.scheduler.nextId >= s.nextId
    ensures r.started.Some? ==> s.nextId <= r.started.value.id < r.scheduler.nextId
    ensures Valid(s) ==> Valid(r.scheduler)
  {
    match m.audio
    case Some(bytes) =>
      if !Decodable(bytes) then
        Reaction(s.(nextStartTime := Max(s.nextStartTime, clock)), None, {})
      else
        var placed := Schedule(s, ChunkBuffer(bytes).Duration(), clock);
        if m.interrupted then
          Interrupt(placed.scheduler).(started := Some(placed.source))
        else
          Reaction(placed.scheduler, Some(placed.source), {})
    case None =>
      if m.interrupted then Interrupt(s) else Reaction(s, None, {})
  }

  /** The `ended` listener: drop the node from the live set; a node already dropped changes nothing. */
  function OnEnded(s: Scheduler, id: SourceId): (r: Scheduler)
    ensures r.live == s.live - {id}
    ensures r.nextStartTime == s.nextStartTime && r.nextId == s.nextId
    ensures id !in s.live ==> r == s
    ensures Valid(s) ==> Valid(r)
  {
    s.(live := s.live - {id})
  }

  /**
   * Node names are never reused. A node stopped by an interruption still
   * fires `ended` later (line 116), and that late event removes only the
   * stopped node: the next chunk's node stays live.
   */
  lemma LateEndedSparesNewNode(s: Scheduler, bytes: seq<Pcm.Byte>, clock: real, later: real, stale: SourceId)
    requires Valid(s)
    requires stale in s.live
    requires Decodable(bytes)
    ensures var cut := OnMessage(s, Message(None, true), clock);
            var next := OnMessage(cut.scheduler, Message(Some(bytes), false), later);
            && stale in cut.stopped
            && next.started.Some?
            && next.started.value.id != stale
            && OnEnded(next.scheduler, stale).live == {next.started.value.id}
  {
    var cut := OnMessage(s, Message(None, true), clock);
    assert stale < s.nextId == cut.scheduler.nextId;
  }

  /** A chunk's length in seconds follows from its byte count: two bytes per frame at 24 kHz. */
  lemma ChunkDuration(bytes: seq<Pcm.Byte>)
    requires |bytes| % 2 == 0
    ensures ChunkBuffer(bytes).Duration() == (|bytes| / 2) as real / OutputSampleRate as real
    ensures ChunkBuffer(bytes).Duration() >= 0.0
  {
    var b := ChunkBuffer(bytes);
    assert b.Length() == |bytes| / 2;
  }

  /** After an interruption the next chunk starts at the current clock. */
  lemma FreshStartAfterInterrupt(s: Scheduler, duration: real, clock: real)
    requires duration >= 0.0
    requires clock >= 0.0
    ensures Schedule(Interrupt(s).scheduler, duration, clock).source.startAt == clock
  {
  }

  // ---------------------------------------------------------------------------
  // Runs of chunks without interruption.

  /** One chunk: its playback length and the output clock when its message was handled. */
  datatype Arrival = Arrival(duration: real, clock: real)

  predicate NonNegative(arrivals: seq<Arrival>)
  {
    forall k :: 0 <= k < |arrivals| ==> arrivals[k].duration >= 0.0
  }

  /** The summed playback length of a run of chunks. */
  function TotalDuration(arrivals: seq<Arrival>): real
  {
    if |arrivals| == 0 then 0.0 else arrivals[0].duration + TotalDuration(arrivals[1..])
  }

  datatype Run = Run(scheduler: Scheduler, sources: seq<Source>)

  /** Scheduling chunks one after another, in arrival order. */
  function ScheduleAll(s: Scheduler, arrivals: seq<Arrival>): (r: Run)
    requires NonNegative(arrivals)
    ensures |r.sources| == |arrivals|
    decreases |arrivals|
  {
    if |arrivals| == 0 then Run(s, [])
    else
      var placed := Schedule(s, arrivals[0].duration, arrivals[0].clock);
      var rest := ScheduleAll(placed.scheduler, arrivals[1..]);
      Run(rest.scheduler, [placed.source] + rest.sources)
  }

  /**
   * In-order chunks never overlap and never start in the past: each starts no
   * earlier than its own clock and no earlier than the previous one's end,
   * and the cursor ends at or after the last chunk's end.
   */
  lemma {:induction false} NoOverlap(s: Scheduler, arrivals: seq<Arrival>)
    requires NonNegative(arrivals)
    ensures var r := ScheduleAll(s, arrivals);
            && (forall k :: 0 <= k < |arrivals| ==> r.sources[k].startAt >= arrivals[k].clock)
            && (forall k :: 0 < k < |arrivals| ==> r.sources[k].startAt >= r.sources[k - 1].End())
            && (|arrivals| > 0 ==> r.sources[0].startAt >= s.nextStartTime)
            && (|arrivals| > 0 ==> r.scheduler.nextStartTime == r.sources[|arrivals| - 1].End())
            && r.scheduler.nextStartTime >= s.nextStartTime
    decreases |arrivals|
  {
    if |arrivals| > 0 {
      var placed := Schedule(s, arrivals[0].duration, arrivals[0].clock);
      NoOverlap(placed.scheduler, arrivals[1..]);
      var rest := ScheduleAll(placed.scheduler, arrivals[1..]);
      var r := ScheduleAll(s, arrivals);
      assert r.sources == [placed.source] + rest.sources;
      forall k | 0 < k < |arrivals|
        ensures r.sources[k].startAt >= r.sources[k - 1].End()
      {
        if k == 1 {
          assert r.sources[k] == rest.sources[0];
        } else {
          assert r.sources[k] == rest.sources[k - 1];
          assert r.sources[k - 1] == rest.sources[k - 2];
        }
      }
    }
  }

  lemma PrefixTail(arrivals: seq<Arrival>, k: nat)
    requires 0 < |arrivals|
    requires k < |arrivals|
    ensures TotalDuration(arrivals[..k + 1]) == arrivals[0].duration + TotalDuration(arrivals[1..][..k])
  {
    assert arrivals[..k + 1][1..] == arrivals[1..][..k];
  }

  /**
   * When every chunk arrives before the audio already queued runs out, the
   * chunks play back to back: chunk k starts exactly the summed length of
   * chunks 0..k-1 after the cursor, and the cursor ends at the total.
   */
  lemma {:induction false} Gapless(s: Scheduler, arrivals: seq<Arrival>)
    requires NonNegative(arrivals)
    requires forall k :: 0 <= k < |arrivals| ==>
               arrivals[k].clock <= s.nextStartTime + TotalDuration(arrivals[..k])
    ensures var r := ScheduleAll(s, arrivals);
            && (forall k :: 0 <= k < |arrivals| ==>
                  r.sources[k].startAt == s.nextStartTime + TotalDuration(arrivals[..k]))
            && r.scheduler.nextStartTime == s.nextStartTime + TotalDuration(arrivals)
    decreases |arrivals|
  {
    if |arrivals| > 0 {
      assert arrivals[..0] == [];
      var placed := Schedule(s, arrivals[0].duration, arrivals[0].clock);
      var tail := arrivals[1..];
      forall k | 0 <= k < |tail|
        ensures tail[k].clock <= placed.scheduler.nextStartTime + TotalDuration(tail[..k])
      {
        assert tail[k] == arrivals[k + 1];
        PrefixTail(arrivals, k);
      }
      Gapless(placed.scheduler, tail);
      var rest := ScheduleAll(placed.scheduler, tail);
      var r := ScheduleAll(s, arrivals);
      forall k | 0 <= k < |arrivals|
        ensures r.sources[k].startAt == s.nextStartTime + TotalDuration(arrivals[..k])
      {
        if k > 0 {
          assert r.sources[k] == rest.sources[k - 1];
          PrefixTail(arrivals, k - 1);
        }
      }
    }
  }

  /**
   * Three one-second chunks handled at clocks 0.2, 0.9 and 1.7 on a fresh
   * timeline: the first starts at 0.2 and the cursor ends at 3.2, the
   * arrival gaps notwithstanding.
   */
  lemma ThreeChunks()
    ensures var r := ScheduleAll(Initial(), [Arrival(1.0, 0.2), Arrival(1.0, 0.9), Arrival(1.0, 1.7)]);
            && r.sources[0].startAt == 0.2
            && r.sources[1].startAt == 1.2
            && r.sources[2].startAt == 2.2
            && r.scheduler.nextStartTime == 3.2
  {
    var arrivals := [Arrival(1.0, 0.2), Arrival(1.0, 0.9), Arrival(1.0, 1.7)];
    assert arrivals[1..][1..] == [Arrival(1.0, 1.7)];
    assert arrivals[1..][1..][1..] == [];
  }
}

=== FILE: wrappers.dfy ===
/** The optional value used throughout the model in place of `null`/`undefined`. */
module Wrappers {

  datatype Option<+T> = None | Some(value: T)
}
